=== FILE: README.md ===
# Chat front-end core, modelled in Dafny

This project models the client-side logic of a chat front-end. Users hold
multi-turn chats with a bot and attach PDF documents that the backend uses
as retrieval context. The network, React's rendering and the browser are
left out. What is left is a set of small sequential state machines:

- **Store** (`store.dfy`, from `src/lib/store.ts`): the handoff store. It
  has two independent single-slot, read-once cells, one for a pending
  message and one for a pending file.
- **ChatSlice** (`chat_slice.dfy`, from `src/lib/redux/chatSlice.ts`): the
  Redux reducer over `{chats, status, error}`. It covers conditional
  hydration and the fetch, create, delete and rename thunk actions.
- **Api** (`api.dfy`, from `src/lib/api.ts`): the decision parts of the API
  client.
  - `handleResponse` branches on status and picks the error message.
  - The bot `Message` is built with the `hasContext` rule.
  - `getChatDocs` never fails.
  - `uploadFile` reports a fixed sequence of progress values.
- **ChatView** (`chat_view.dfy`, from `src/components/chat-view.tsx`): the
  send, upload and document-delete handlers. Each is modelled as one
  transition given the replies of the calls it awaits.
- **Sidebar** (`sidebar.dfy`, from `src/components/sidebar.tsx`): creating,
  deleting and renaming chats, the inline-edit fields, and the refresh.
- **ChatInput** (`chat_input.dfy`, from `src/components/chat-input.tsx`):
  the send guard, the key handling and the 120 px height clamp.

Four shared modules support them:

- **Types** holds the records of `src/types/index.ts`. Sender and status
  are closed datatypes.
- **Text** holds JavaScript `trim` (over the exact ECMAScript whitespace set)
  and the decimal rendering of numbers.
- **ChatLists** holds `filter`, `find` and `map` as they are used on chat
  and document lists, and the position `find` picks.
- **Effects** describes what a handler emits: the backend requests it
  issues, the toasts it raises and the route it pushes.

Inputs replace everything outside the program:

- The clock (`Date.now()` together with the ISO timestamp) is an `Instant`
  parameter.
- `window.confirm` is a boolean parameter.
- The active route's chat id is an optional parameter.
- Every awaited fetch is an input. It is either a network failure or a
  response with a status and a body.

## Model

| member | source | states |
|---|---|---|
| Store.Initial | src/lib/store.ts:7-10 | both cells start empty |
| Store.SetPendingMessage | src/lib/store.ts:13-15 | the message cell holds the written text; the file cell is untouched |
| Store.GetPendingMessage | src/lib/store.ts:16-20 | the read yields the cell's value and leaves the cell empty; the file cell is untouched |
| Store.SetPendingFile | src/lib/store.ts:21-23 | the file cell holds the written file; the message cell is untouched |
| Store.GetPendingFile | src/lib/store.ts:24-28 | the read yields the file cell's value and empties it; the message cell is untouched |
| Store.SetThenGetMessage | src/lib/store.ts:13-20 | a written message is returned by the next read |
| Store.GetMessageIsReadOnce | src/lib/store.ts:16-20 | a second read straight after a read returns null |
| Store.LastMessageWriteWins | src/lib/store.ts:13-15 | two writes before a read leave only the second; nothing is queued |
| Store.GetFileIsReadOnce | src/lib/store.ts:21-28 | a written file is read back once, then the read returns null |
| Store.LastFileWriteWins | src/lib/store.ts:21-23 | two file writes before a read leave only the second |
| Store.RunMatchesReference | src/lib/store.ts:12-29 | after any sequence of calls, each cell equals an independent reference: the last write to that cell unless a read of that cell followed it |
| Store.FileCallsLeaveMessage | src/lib/store.ts:21-28 | no sequence of file calls changes the message cell |
| Store.HandoffFromInitial | src/lib/store.ts:7-29 | from the initial store, a read after any call sequence returns exactly the reference value |
| ChatSlice.InitialState | src/lib/redux/chatSlice.ts:12-16 | the slice starts with no chats, status idle and no error |
| ChatSlice.Reduce | src/lib/redux/chatSlice.ts:50-93 | only a rejected fetch touches `error`; only hydration and the fetch actions change `status`; fetch pending and rejected keep the chats. The case lemmas below state each action in full |
| ChatSlice.ErrorOrNull | src/lib/redux/chatSlice.ts:75 | an absent or empty rejection message becomes null; any other message is kept |
| ChatSlice.InitialStateHydrates | src/lib/redux/chatSlice.ts:12-16 | the initial state is empty chats, status idle and no error, and hydrating it always takes the payload |
| ChatSlice.SetInitialChatsOnlyWhenEmpty | src/lib/redux/chatSlice.ts:54-61 | hydration replaces chats and sets succeeded exactly when the list is empty; otherwise the state is unchanged |
| ChatSlice.HydrationIsOnce | src/lib/redux/chatSlice.ts:54-61 | after hydrating with a non-empty payload, further hydrations are ignored |
| ChatSlice.FetchLifecycle | src/lib/redux/chatSlice.ts:66-76 | pending sets loading only; fulfilled replaces chats wholesale and keeps the error; rejected sets failed, sets the error to the message or to null when it is absent or empty, and keeps the chats |
| ChatSlice.ErrorSurvivesRefetch | src/lib/redux/chatSlice.ts:69-76 | a successful refetch after a rejection reports succeeded with the old error still set |
| ChatSlice.CreatePrepends | src/lib/redux/chatSlice.ts:78-80 | a create makes the list one longer, with the new chat first and the old list after it |
| ChatSlice.DeleteRemovesId | src/lib/redux/chatSlice.ts:82-84 | after a delete no chat has the id, every chat with another id remains with all its copies, and order is kept |
| ChatSlice.CreateThenDeleteRestores | src/lib/redux/chatSlice.ts:78-84 | deleting a just-created chat with a fresh id restores the previous state |
| ChatSlice.DeleteIdempotent | src/lib/redux/chatSlice.ts:82-84 | deleting the same id twice equals deleting it once |
| ChatSlice.RenameChangesOnlyFirstTitle | src/lib/redux/chatSlice.ts:86-92 | a rename changes only the title of the first chat with the id; it is a no-op when none matches; length and ids are kept |
| ChatSlice.RenameRoundTrip | src/lib/redux/chatSlice.ts:86-92 | renaming back to the previous title restores the list |
| ChatSlice.UnhandledActionsChangeNothing | src/lib/redux/chatSlice.ts:63-93 | pending and rejected actions of create, delete and rename leave the state unchanged |
| ChatSlice.ErrorIsLastRejection | src/lib/redux/chatSlice.ts:63-93 | after any sequence of actions, `error` is what the last rejected fetch set, or its starting value when no fetch was rejected |
| ChatLists.Filter | src/lib/redux/chatSlice.ts:83 | the result holds exactly the kept elements, as a subsequence of the input |
| ChatLists.FilterCounts | src/lib/redux/chatSlice.ts:83 | every kept element appears as many times as in the input; no other element appears |
| ChatLists.FilterAppend | src/lib/redux/chatSlice.ts:83 | filtering distributes over concatenation, so relative order survives |
| ChatLists.WithoutChat | src/lib/redux/chatSlice.ts:83 | no chat with the id is left; every chat with another id is kept with all its copies, in order |
| ChatLists.WithoutChatIdempotent | src/lib/redux/chatSlice.ts:83 | filtering out an id a second time changes nothing |
| ChatLists.WithoutDocument | src/components/chat-view.tsx:88 | no document with the name is left; every other document is kept with all its copies, in order |
| ChatLists.FindIndex | src/lib/redux/chatSlice.ts:88 | the position `find` picks: the first index with the id; none exactly when no chat has it |
| ChatLists.FindChat | src/components/chat-view.tsx:75 | the chat found is the first in the list with the id; null exactly when no chat has it |
| ChatLists.RenameFirst | src/lib/redux/chatSlice.ts:86-92 | only the first matching chat gets the title; the list is unchanged when none matches |
| ChatLists.RenameAll | src/components/sidebar.tsx:75 | every chat with the id gets the title; every other chat is unchanged |
| ChatLists.RenameAllIsRenameFirstWhenUnique | src/components/sidebar.tsx:75 | when ids are unique, the sidebar's rename and the reducer's rename agree |
| Text.TrimStart | src/components/chat-input.tsx:29 | drops exactly the leading whitespace, giving the longest suffix that does not start with whitespace |
| Text.TrimEnd | src/components/chat-input.tsx:29 | drops exactly the trailing whitespace |
| Text.Trim | src/components/chat-input.tsx:29 | the trimmed text is a slice of the input with only whitespace outside it, and it neither starts nor ends with whitespace, so exactly the leading and trailing whitespace is removed |
| Text.BlankIffAllWhitespace | src/components/chat-input.tsx:29 | `!s.trim()` (the predicate `Text.Blank`) holds exactly when every character is ECMAScript whitespace |
| Text.NatToDecimal | src/components/chat-view.tsx:39 | `n.toString()` gives canonical decimal digits with no leading zero, and they read back as `n` |
| Text.NatToDecimalInjective | src/components/chat-view.tsx:39 | different clock readings render as different message ids |
| Api.FailureMessage | src/lib/api.ts:26-27 | the message is the body's truthy `error` field if present, else "Request failed with status N"; an unreadable body gives "An unknown error occurred" |
| Api.StatusMessageNamesStatus | src/lib/api.ts:27 | the status can be read back from the status-coded message |
| Api.HandleResponse | src/lib/api.ts:18-29 | 204 gives null; any other ok status gives the parsed body, or a JSON error; a non-ok status gives an error with the failure message |
| Api.Call | src/lib/api.ts:33-36 | a network failure gives a network error, never a value; a received response gives exactly what `handleResponse` makes of it |
| Api.ContextFlag | src/lib/api.ts:85 | `hasContext` is absent exactly when the sources are, and true exactly when they are present and non-empty |
| Api.BotMessage | src/lib/api.ts:80-87 | the sender is bot and the text is the reply; `hasContext` holds exactly when sources are present and non-empty |
| Api.SendMessageToChat | src/lib/api.ts:64-90 | succeeds exactly when the call yields a body, giving the bot message built from it; errors propagate; a null body fails |
| Api.GetChatDocs | src/lib/api.ts:94-103 | never fails: the server's `pdfs` when delivered, otherwise the empty list |
| Api.UploadFile | src/lib/api.ts:106-123 | progress is 10, 30, then 100 once a response arrives; strictly increasing and at most 100; a network failure stops at 30 |
| Api.UploadReportsCompletionOnHttpError | src/lib/api.ts:116-122 | an error status still reports 100 before the upload rejects |
| ChatView.Mount | src/components/chat-view.tsx:24-34 | the view starts from its props, with both flags false |
| ChatView.UserMessage | src/components/chat-view.tsx:38-43 | the optimistic message has sender user, the typed text, and the clock's id and timestamp |
| ChatView.ErrorReply | src/components/chat-view.tsx:51-54 | the error message has sender bot, `isError` set, and text "Sorry, an error occurred."; `hasContext` and `sourceReferences` are absent |
| ChatView.SendStarted | src/components/chat-view.tsx:37-44 | `isSending` is raised and the user message is appended before the request is issued; nothing else changes |
| ChatView.ReplyFor | src/components/chat-view.tsx:46-55 | the appended reply is the bot message on success and the error message on failure; its sender is always bot |
| ChatView.SendSettled | src/components/chat-view.tsx:47-58 | one reply is appended; `isSending` is false on both outcomes; a toast is raised exactly on failure |
| ChatView.HandleSendMessage | src/components/chat-view.tsx:36-59 | the transcript becomes old + [user, reply]; `isSending` is false afterwards; one send request is issued |
| ChatView.SendOutcomes | src/components/chat-view.tsx:46-55 | on success old + [user, bot]; on failure old + [user, error] with an error toast; the user message stays |
| ChatView.SendDisablesInputUntilSettled | src/components/chat-view.tsx:121 | the input is disabled while sending; afterwards it is disabled only if an upload is running (`ChatView.InputDisabled` is `isSending || isUploading`) |
| ChatView.ExpectedAlternates | src/components/chat-view.tsx:36-59 | in the reference transcript, the i-th user message is immediately followed by its bot or error reply |
| ChatView.SendStep | src/components/chat-view.tsx:36-59 | one completed send adds exactly the user message and its reply, leaves the view not sending and changes nothing else |
| ChatView.SendsFollowCallOrder | src/components/chat-view.tsx:36-59 | any series of sends appends exactly the reference transcript, in call order; nothing else changes |
| ChatView.UploadStarted | src/components/chat-view.tsx:63 | `isUploading` is true during the upload, which disables the input |
| ChatView.HandleFileUpload | src/components/chat-view.tsx:61-81 | no file means no change and no call; otherwise `isUploading` ends false; messages are never touched |
| ChatView.UploadFailureKeepsDocuments | src/components/chat-view.tsx:66-80 | a failed upload refreshes nothing and ends with an error toast |
| ChatView.UploadSuccessReplacesDocuments | src/components/chat-view.tsx:67-75 | after a successful upload and chat-list refresh, documents are replaced by the server list, and chatDetails is the first listed chat with the id, or null; only the upload flag changes besides |
| ChatView.UploadRefreshFailureKeepsState | src/components/chat-view.tsx:70-77 | when the chat-list refresh rejects after a successful upload, documents and chatDetails stay and an "Upload failed" toast follows the completion toast |
| ChatView.UploadNullChatListKeepsDetails | src/components/chat-view.tsx:70-77 | when the chat list comes back null, documents are already replaced, chatDetails stays, and an "Upload failed" toast follows |
| ChatView.HandleDeleteDoc | src/components/chat-view.tsx:83-92 | unconfirmed: nothing; success: every document of that name removed, every copy of the others kept in order; failure: documents unchanged |
| Sidebar.Mount | src/components/sidebar.tsx:24-26 | the sidebar starts from its initial chats, not editing |
| Sidebar.RefreshChats | src/components/sidebar.tsx:32-39 | a fetched list replaces the chats; a failure keeps them and raises a toast |
| Sidebar.ChatPath | src/components/sidebar.tsx:50 | the route is `/c/` followed by the chat id, which reads back from it |
| Sidebar.HandleCreateChat | src/components/sidebar.tsx:46-55 | the new chat is prepended and the view navigates to it; a failure changes nothing |
| Sidebar.CreateThenDeleteRestores | src/components/sidebar.tsx:46-69 | creating a chat with a fresh id and deleting it from its own route gives back the old list and navigates home |
| Sidebar.HandleDeleteChat | src/components/sidebar.tsx:57-69 | unconfirmed: nothing; success: the id is filtered out, and the view goes home exactly when that chat is active |
| Sidebar.HandleSaveEdit | src/components/sidebar.tsx:71-83 | a blank title returns early with nothing reset; otherwise the rename uses the untrimmed title, and the editor closes on both outcomes |
| Sidebar.RenameKeepsOthers | src/components/sidebar.tsx:75 | matching chats get exactly the typed title; all other chats are unchanged |
| Sidebar.WhitespaceTitleIsRejected | src/components/sidebar.tsx:72 | a whitespace-only title issues no rename and changes nothing |
| Sidebar.StartEdit | src/components/sidebar.tsx:103 | the editor opens on the chat's id with its title |
| Sidebar.CancelEdit | src/components/sidebar.tsx:104 | the editor closes and the typed title is kept |
| Sidebar.EditChange | src/components/sidebar.tsx:102 | the typed title is stored; nothing else changes |
| Sidebar.SaveUnchangedTitleKeepsChats | src/components/sidebar.tsx:71-83 | with unique ids, starting an edit and saving it unchanged leaves the chat list as it was, whatever the title (a blank one is not saved at all) |
| ChatInput.HandleSend | src/components/chat-input.tsx:28-32 | nothing is sent exactly when disabled or blank; otherwise the untrimmed text is sent and the box is cleared |
| ChatInput.ButtonMatchesGuard | src/components/chat-input.tsx:58-60 | the send button is disabled exactly when the send guard suppresses a send (`ChatInput.SendButtonDisabled` is the `disabled` attribute) |
| ChatInput.WhitespaceIsNeverSent | src/components/chat-input.tsx:29 | a whitespace-only text is never sent and stays in the box |
| ChatInput.HandleKeyDown | src/components/chat-input.tsx:34-42 | Enter without Shift takes the send path; Escape clears regardless of `disabled`; other keys do nothing |
| ChatInput.ShiftEnterDoesNotSend | src/components/chat-input.tsx:35-38 | Shift+Enter neither sends nor changes the text |
| ChatInput.TextareaHeight | src/components/chat-input.tsx:24 | the height never exceeds 120 or the scroll height, and equals one of them |
| ChatInput.HeightGrowsThenCaps | src/components/chat-input.tsx:24 | the height grows with the content and caps at 120 |

## Left out

- The HTTP transport is left out, and so are the API base URL and path building (`encodeURIComponent`). An awaited call is an input: a network failure, or a status with a body.
- getChats, createNewChat, deleteChat, renameChat, getMessagesForChat and deleteDoc are each `fetch` plus `handleResponse`. They are modelled once, as `Api.Call`.
- A JSON body is modelled as a payload of the expected type plus an optional string `error` field. The model does not cover:
  - a body whose fields have other types;
  - a body of literal `null`, where reading `.error` throws;
  - a non-string `error` value.
- Engine-chosen error texts are not modelled. These are the texts of a network `TypeError`, a JSON `SyntaxError`, and a `TypeError` from reading a field of a `null` reply. `Api.ErrorText` returns `None` for them.
- Sidebar.HandleCreateChat: takes the create outcome as a chat or an error. It does not model a 204 reply: the handler would prepend `null` to the list and then throw on `newChat.id`.
- Sidebar.RefreshChats: a `null` chat list (204) would be stored as is. The model keeps the old list.
- ChatSlice.Reduce: the fulfilled payloads of `fetchChats` and `createNewChat` are a chat list and a chat. A 204 reply makes either thunk deliver `null`, which the reducer would store as the list or put in front of it; the model's state cannot hold `null`, so that case is not modelled.
- Callers of the pending-message and pending-file store are not modelled. The model states the store's own contract.
- React's asynchronous `setState` batching and interleavings are not modelled. Each handler is one sequential step, and functional updates read the state the step started from.
- Overlapping sends are not modelled. A series of sends is modelled with each send settling before the next.
- The toast library is represented only by the `addToast` calls a handler makes. `router.push` is a navigation output, and `window.confirm` is a boolean input.
- `console.log`, `console.warn` and `console.error` calls are not modelled. The progress callback `chat-view.tsx` passes to `uploadFile` only logs.
- Rendering and styling are not modelled: message list, bubbles, document panel, upload overlay, welcome screen, chat history, layouts, providers and the theme toggle. `showDocPanel` and `mounted` are rendering state.
- `formatDate` and `formatTime` depend on the wall clock and locale formatting, so they are not modelled.
- `src/app/c/[chatId]/page.tsx` and `src/app/page.tsx` are not part of this model. The first loads a chat's messages, documents and details on the server and mounts the chat view with them. The second is a client page that loads the chat list and mounts the chat view with that list only.
- ChatView.Mount: models only the mount from `/c/[chatId]`, whose props are always defined. On the root route `chatId`, `initialMessages`, `initialDocuments` and `initialChatDetails` are undefined, so the first send's functional update spreads `undefined` and throws; the model does not cover that mount.
- Text.NatToDecimal: matches JavaScript's `toString` only for integers below 10^21, which covers every `Date.now()` value and HTTP status. Beyond that JavaScript switches to exponent notation.

=== FILE: api.dfy ===
/** The decision logic of the API client: turning a fetch response into a
    value or an error, shaping the bot's reply into a `Message`, the
    never-failing document listing and the progress reports of an upload.
    The transport is outside the model: a call's reply is an input, either
    a network failure or a response with a status and a body. */
module Api {
  import opened Types
  import Text

  /** A response body as `response.json()` sees it: not JSON at all, or a
      JSON value read both as the expected payload and for its `error`
      field (`None` when that field is absent or falsy). */
  datatype Body<T> = Unparseable | Parsed(value: T, errorField: Option<string>)

  /** A fetch `Response`; `ok` is derived from the status as the Fetch
      standard defines it. */
  datatype Response<T> = Response(status: nat, body: Body<T>) {
    predicate Ok() {
      200 <= status <= 299
    }
  }

  /** What `await fetch(...)` produced: a rejection, or a response. */
  datatype Reply<T> = NetworkFailure | Received(response: Response<T>)

  /** Why a call's promise rejected. `RequestFailed` is the `Error` that
      `handleResponse` throws; the other messages are chosen by the
      JavaScript engine and are not modelled. */
  datatype ApiError =
    | RequestFailed(message: string)
    | InvalidJson
    | NetworkError
    | NullBody

  /** The `message` of the error, when the model knows it. */
  function ErrorText(e: ApiError): Option<string> {
    match e
    case RequestFailed(m) => Some(m)
    case _ => None
  }

  const UnknownError := "An unknown error occurred"
  const StatusPrefix := "Request failed with status "

  /** The message `handleResponse` throws for a non-ok response: the body's
      truthy `error` field, else a text naming the status. An unreadable
      body stands for `{ error: 'An unknown error occurred' }`. */
  function FailureMessage<T>(r: Response<T>): (m: string)
    ensures r.body.Unparseable? ==> m == UnknownError
    ensures r.body.Parsed? && r.body.errorField.Some? && r.body.errorField.value != "" ==>
      m == r.body.errorField.value
    ensures r.body.Parsed? && (r.body.errorField.None? || r.body.errorField.value == "") ==>
      m == StatusPrefix + Text.NatToDecimal(r.status)
  {
    match r.body
    case Unparseable => UnknownError
    case Parsed(_, Some(e)) =>
      if e != "" then e else StatusPrefix + Text.NatToDecimal(r.status)
    case Parsed(_, None) => StatusPrefix + Text.NatToDecimal(r.status)
  }

  /** The status-coded message names the status, which reads back from it. */
  lemma StatusMessageNamesStatus(status: nat)
    ensures var m := StatusPrefix + Text.NatToDecimal(status);
      |m| > |StatusPrefix| && m[..|StatusPrefix|] == StatusPrefix &&
      Text.IsDigits(m[|StatusPrefix|..]) && Text.DecimalValue(m[|StatusPrefix|..]) == status
  {
    var m := StatusPrefix + Text.NatToDecimal(status);
    assert m[|StatusPrefix|..] == Text.NatToDecimal(status);
  }

  /** `handleResponse(response)`: `Ok(None)` is the `null` of a 204,
      `Ok(Some(v))` the parsed body of any other ok response. */
  function HandleResponse<T>(r: Response<T>): (res: Result<Option<T>, ApiError>)
    ensures res == Ok(None) <==> r.Ok() && r.status == 204
    ensures res.Ok? && res.value.Some? <==> r.Ok() && r.status != 204 && r.body.Parsed?
    ensures res.Ok? && res.value.Some? ==> res.value.value == r.body.value
    ensures res == Err(InvalidJson) <==> r.Ok() && r.status != 204 && r.body.Unparseable?
    ensures res.Err? && res.error.RequestFailed? <==> !r.Ok()
    ensures !r.Ok() ==> res.error.message == FailureMessage(r)
  {
    if r.Ok() then
      if r.status == 204 then Ok(None)
      else match r.body
        case Unparseable => Err(InvalidJson)
        case Parsed(v, _) => Ok(Some(v))
    else Err(RequestFailed(FailureMessage(r)))
  }

  /** One `fetch` followed by `handleResponse`: the shape of every plain
      call in the client (getChats, createNewChat, deleteChat, renameChat,
      getMessagesForChat, deleteDoc). */
  function Call<T>(reply: Reply<T>): (res: Result<Option<T>, ApiError>)
    ensures reply.NetworkFailure? <==> res == Err(NetworkError)
    ensures reply.Received? ==> res == HandleResponse(reply.response)
  {
    match reply
    case NetworkFailure => Err(NetworkError)
    case Received(r) => HandleResponse(r)
  }

  /** The backend's reply to a sent message. */
  datatype BotResponse = BotResponse(reply: string, sources: Option<seq<SourceReference>>)

  /** `botResponse.sources && botResponse.sources.length > 0`: absent
      sources leave the field unset, present ones give a boolean. */
  function ContextFlag(sources: Option<seq<SourceReference>>): (r: Option<bool>)
    ensures r.None? <==> sources.None?
    ensures r == Some(true) <==> sources.Some? && |sources.value| > 0
  {
    match sources
    case None => None
    case Some(s) => Some(|s| > 0)
  }

  /** The bot `Message` built from a reply; its id is `msg_` and the clock
      reading, its timestamp the ISO form of the same reading. */
  function BotMessage(b: BotResponse, at: Instant): (m: Message)
    ensures m.sender == Bot && m.text == b.reply
    ensures m.hasContext == Some(true) <==> b.sources.Some? && |b.sources.value| > 0
    ensures m.sourceReferences == b.sources
    ensures m.isError.None?
    ensures m.id == "msg_" + Text.NatToDecimal(at.millis) && m.timestamp == at.iso
  {
    Message("msg_" + Text.NatToDecimal(at.millis), b.reply, Bot, at.iso, None,
            ContextFlag(b.sources), b.sources)
  }

  /** `sendMessageToChat`: a `null` reply (status 204) makes reading
      `reply` throw, modelled as `NullBody`. */
  function SendMessageToChat(reply: Reply<BotResponse>, at: Instant): (res: Result<Message, ApiError>)
    ensures res.Ok? <==> Call(reply).Ok? && Call(reply).value.Some?
    ensures res.Ok? ==> res.value == BotMessage(Call(reply).value.value, at)
    ensures Call(reply).Err? ==> res == Err(Call(reply).error)
    ensures Call(reply) == Ok(None) ==> res == Err(NullBody)
  {
    match Call(reply)
    case Err(e) => Err(e)
    case Ok(None) => Err(NullBody)
    case Ok(Some(b)) => Ok(BotMessage(b, at))
  }

  /** The body of the document-list endpoint. */
  datatype PdfsBody = PdfsBody(pdfs: Option<seq<Document>>)

  /** The call delivered a document list. */
  predicate DeliversDocs(reply: Reply<PdfsBody>) {
    && reply.Received?
    && reply.response.Ok()
    && reply.response.status != 204
    && reply.response.body.Parsed?
    && reply.response.body.value.pdfs.Some?
  }

  /** `getChatDocs`: never fails; every failure, a `null` body or a missing
      `pdfs` field all give the empty list. */
  function GetChatDocs(reply: Reply<PdfsBody>): (docs: seq<Document>)
    ensures DeliversDocs(reply) ==> docs == reply.response.body.value.pdfs.value
    ensures !DeliversDocs(reply) ==> docs == []
  {
    var c := Call(reply);
    if c.Ok? && c.value.Some? && c.value.value.pdfs.Some? then c.value.value.pdfs.value else []
  }

  /** What `uploadFile` did: the progress values reported, in order, and
      how its promise settled. */
  datatype UploadRun<T> = UploadRun(progress: seq<nat>, result: Result<Option<T>, ApiError>)

  predicate StrictlyIncreasing(s: seq<nat>) {
    forall i, j :: 0 <= i < j < |s| ==> s[i] < s[j]
  }

  /** `uploadFile`: reports 10 and 30 before the transfer, and 100 once the
      transfer has returned a response, whatever its status; a network
      failure rejects before 100 is reported. */
  function UploadFile<T>(reply: Reply<T>): (u: UploadRun<T>)
    ensures StrictlyIncreasing(u.progress)
    ensures forall i :: 0 <= i < |u.progress| ==> u.progress[i] <= 100
    ensures |u.progress| >= 2 && u.progress[..2] == [10, 30]
    ensures reply.Received? <==> |u.progress| == 3 && u.progress[2] == 100
    ensures reply.NetworkFailure? ==> u.progress == [10, 30] && u.result == Err(NetworkError)
    ensures reply.Received? ==> u.result == HandleResponse(reply.response)
  {
    match reply
    case NetworkFailure => UploadRun([10, 30], Err(NetworkError))
    case Received(r) => UploadRun([10, 30, 100], HandleResponse(r))
  }

  /** A rejected upload (an error status) still reports 100. */
  lemma UploadReportsCompletionOnHttpError<T>(r: Response<T>)
    requires !r.Ok()
    ensures var u := UploadFile(Received(r));
      u.progress == [10, 30, 100] && u.result.Err? && u.result.error.RequestFailed?
  {
  }
}

=== FILE: chat_input.dfy ===
/** The message input box: the send guard, the keyboard handling and the
    auto-growing height. The text typed so far is the component's state; a
    send hands the text to the `onSendMessage` callback, modelled as the
    `sent` output. */
module ChatInput {
  import opened Types
  import Text

  /** What a handler did: the text passed to `onSendMessage`, if any, and
      the input text afterwards. */
  datatype SendResult = SendResult(sent: Option<string>, input: string)

  /** The parts of a `KeyboardEvent` the handler reads. */
  datatype KeyEvent = KeyEvent(key: string, shiftKey: bool)

  /** What `handleKeyDown` did, including whether it called
      `preventDefault` (which stops Enter from inserting a line break). */
  datatype KeyResult = KeyResult(sent: Option<string>, input: string, preventDefault: bool)

  /** The send button's `disabled` attribute. */
  predicate SendButtonDisabled(input: string, disabled: bool) {
    disabled || Text.Blank(input)
  }

  /** `handleSend`: nothing while disabled or when the text is blank;
      otherwise the text goes out as typed and the box is emptied. */
  function HandleSend(input: string, disabled: bool): (r: SendResult)
    ensures r.sent.None? <==> disabled || Text.Blank(input)
    ensures r.sent.None? ==> r.input == input
    ensures r.sent.Some? ==> r.sent.value == input && r.input == ""
  {
    if disabled || Text.Blank(input) then SendResult(None, input) else SendResult(Some(input), "")
  }

  /** A button click sends exactly when the button is enabled. */
  lemma ButtonMatchesGuard(input: string, disabled: bool)
    ensures SendButtonDisabled(input, disabled) <==> HandleSend(input, disabled).sent.None?
  {
  }

  /** A text of whitespace only is never sent. */
  lemma WhitespaceIsNeverSent(input: string, disabled: bool)
    requires Text.AllWhitespace(input)
    ensures HandleSend(input, disabled) == SendResult(None, input)
  {
    Text.BlankIffAllWhitespace(input);
  }

  /** `handleKeyDown`: Enter without Shift takes the send path (and
      suppresses the line break); Escape empties the box whether or not the
      input is disabled; every other key, Shift+Enter included, does nothing
      here. */
  function HandleKeyDown(e: KeyEvent, input: string, disabled: bool): (r: KeyResult)
    ensures r.preventDefault <==> e.key == "Enter" && !e.shiftKey
    ensures r.preventDefault ==>
      r.sent == HandleSend(input, disabled).sent && r.input == HandleSend(input, disabled).input
    ensures e.key == "Escape" ==> r.sent.None? && r.input == ""
    ensures e.key != "Escape" && !r.preventDefault ==> r.sent.None? && r.input == input
  {
    if e.key == "Enter" && !e.shiftKey then
      var sent := HandleSend(input, disabled);
      KeyResult(sent.sent, sent.input, true)
    else if e.key == "Escape" then KeyResult(None, "", false)
    else KeyResult(None, input, false)
  }

  /** Shift+Enter never sends and leaves the text alone. */
  lemma ShiftEnterDoesNotSend(input: string, disabled: bool)
    ensures HandleKeyDown(KeyEvent("Enter", true), input, disabled) == KeyResult(None, input, false)
  {
  }

  const MaxHeight: nat := 120

  /** The textarea's height in pixels after a text change:
      `Math.min(scrollHeight, 120)`. */
  function TextareaHeight(scrollHeight: nat): (h: nat)
    ensures h <= MaxHeight && h <= scrollHeight
    ensures h == scrollHeight || h == MaxHeight
  {
    if scrollHeight < MaxHeight then scrollHeight else MaxHeight
  }

  /** The box grows with its content up to 120 pixels and then stops. */
  lemma HeightGrowsThenCaps(a: nat, b: nat)
    requires a <= b
    ensures TextareaHeight(a) <= TextareaHeight(b)
    ensures b <= MaxHeight ==> TextareaHeight(b) == b
    ensures b >= MaxHeight ==> TextareaHeight(b) == MaxHeight
  {
  }
}

=== FILE: chat_lists.dfy ===
/** The list operations shared by the chat-list reducer, the sidebar and the
    chat view: `Array.prototype.filter`, `find` and `map` as they are used
    on chat and document lists, and the position `find` picks. */
module ChatLists {
  import opened Types

  /** `a` is obtained from `b` by deleting elements: same relative order. */
  ghost predicate Subsequence<T>(a: seq<T>, b: seq<T>)
    decreases |b|
  {
    if a == [] then true
    else if b == [] then false
    else (a[0] == b[0] && Subsequence(a[1..], b[1..])) || Subsequence(a, b[1..])
  }

  /** `s.filter(keep)`. */
  function Filter<T(!new)>(s: seq<T>, keep: T -> bool): (r: seq<T>)
    ensures |r| <= |s|
    ensures forall x :: x in r <==> x in s && keep(x)
    ensures Subsequence(r, s)
  {
    if s == [] then []
    else
      var rest := Filter(s[1..], keep);
      if keep(s[0]) then
        assert ([s[0]] + rest)[1..] == rest;
        [s[0]] + rest
      else rest
  }

  /** The filter keeps every copy of a kept element and none of the others. */
  lemma {:induction false} FilterCounts<T(!new)>(s: seq<T>, keep: T -> bool)
    ensures forall x :: multiset(Filter(s, keep))[x] == if keep(x) then multiset(s)[x] else 0
  {
    if s != [] {
      FilterCounts(s[1..], keep);
      assert s == [s[0]] + s[1..];
    }
  }

  /** Filtering distributes over concatenation: the kept elements of `a`
      stay in front of the kept elements of `b`. */
  lemma {:induction false} FilterAppend<T(!new)>(a: seq<T>, b: seq<T>, keep: T -> bool)
    ensures Filter(a + b, keep) == Filter(a, keep) + Filter(b, keep)
  {
    if a == [] {
      assert a + b == b;
    } else {
      assert (a + b)[1..] == a[1..] + b;
      FilterAppend(a[1..], b, keep);
    }
  }

  /** A filter that rejects nothing returns its input. */
  lemma {:induction false} FilterKeepsAll<T(!new)>(s: seq<T>, keep: T -> bool)
    requires forall i :: 0 <= i < |s| ==> keep(s[i])
    ensures Filter(s, keep) == s
  {
    if s != [] {
      FilterKeepsAll(s[1..], keep);
    }
  }

  /** Filtering twice with the same predicate is filtering once. */
  lemma FilterIdempotent<T(!new)>(s: seq<T>, keep: T -> bool)
    ensures Filter(Filter(s, keep), keep) == Filter(s, keep)
  {
    var r := Filter(s, keep);
    forall i | 0 <= i < |r|
      ensures keep(r[i])
    {
      assert r[i] in r;
    }
    FilterKeepsAll(r, keep);
  }

  /** `xs.flatMap(f)`: the pieces `f` gives each element, in order. */
  function FlatMap<A, B>(xs: seq<A>, f: A -> seq<B>): seq<B>
    decreases |xs|
  {
    if xs == [] then [] else f(xs[0]) + FlatMap(xs[1..], f)
  }

  lemma {:induction false} FlatMapOfPairsLength<A, B>(xs: seq<A>, f: A -> seq<B>)
    requires forall k :: 0 <= k < |xs| ==> |f(xs[k])| == 2
    ensures |FlatMap(xs, f)| == 2 * |xs|
    decreases |xs|
  {
    if xs != [] {
      assert |f(xs[0])| == 2;
      FlatMapOfPairsLength(xs[1..], f);
    }
  }

  /** When every piece is a pair, element `i`'s pair sits at positions
      `2i` and `2i+1`. */
  lemma {:induction false} FlatMapOfPairsAt<A, B>(xs: seq<A>, f: A -> seq<B>, i: nat)
    requires forall k :: 0 <= k < |xs| ==> |f(xs[k])| == 2
    requires i < |xs|
    ensures |FlatMap(xs, f)| == 2 * |xs|
    ensures FlatMap(xs, f)[2 * i] == f(xs[i])[0]
    ensures FlatMap(xs, f)[2 * i + 1] == f(xs[i])[1]
    decreases i
  {
    FlatMapOfPairsLength(xs, f);
    if i > 0 {
      var rest := xs[1..];
      assert |f(xs[0])| == 2;
      FlatMapOfPairsAt(rest, f, i - 1);
      assert rest[i - 1] == xs[i];
    }
  }

  /** Some chat of the list has id `id`. */
  predicate HasChat(chats: seq<Chat>, id: string) {
    exists i :: 0 <= i < |chats| && chats[i].id == id
  }

  /** No two chats share an id. */
  predicate UniqueIds(chats: seq<Chat>) {
    forall i, j :: 0 <= i < j < |chats| ==> chats[i].id != chats[j].id
  }

  /** `chats.filter(c => c.id !== id)`. */
  function WithoutChat(chats: seq<Chat>, id: string): (r: seq<Chat>)
    ensures !HasChat(r, id)
    ensures forall c :: c in r <==> c in chats && c.id != id
    ensures Subsequence(r, chats)
    ensures forall c :: multiset(r)[c] == if c.id != id then multiset(chats)[c] else 0
  {
    var r := Filter(chats, (c: Chat) => c.id != id);
    FilterCounts(chats, (c: Chat) => c.id != id);
    assert forall i :: 0 <= i < |r| ==> r[i] in r;
    r
  }

  /** Removing an id twice is removing it once. */
  lemma WithoutChatIdempotent(chats: seq<Chat>, id: string)
    ensures WithoutChat(WithoutChat(chats, id), id) == WithoutChat(chats, id)
  {
    FilterIdempotent(chats, (c: Chat) => c.id != id);
  }

  /** Removing the id of a chat just put in front of a list that did not
      have it gives back that list. */
  lemma WithoutFreshChat(chats: seq<Chat>, c: Chat)
    requires !HasChat(chats, c.id)
    ensures WithoutChat([c] + chats, c.id) == chats
  {
    var keep := (x: Chat) => x.id != c.id;
    assert forall i :: 0 <= i < |chats| ==> keep(chats[i]);
    FilterKeepsAll(chats, keep);
    FilterAppend([c], chats, keep);
    assert [c][1..] == [];
    assert Filter([c], keep) == [];
  }

  /** `docs.filter(d => d.name !== name)`. */
  function WithoutDocument(docs: seq<Document>, name: string): (r: seq<Document>)
    ensures forall i :: 0 <= i < |r| ==> r[i].name != name
    ensures forall d :: d in r <==> d in docs && d.name != name
    ensures Subsequence(r, docs)
    ensures forall d :: multiset(r)[d] == if d.name != name then multiset(docs)[d] else 0
  {
    var r := Filter(docs, (d: Document) => d.name != name);
    FilterCounts(docs, (d: Document) => d.name != name);
    assert forall i :: 0 <= i < |r| ==> r[i] in r;
    r
  }

  /** The position of the first chat with id `id`, the one `find` picks;
      `None` when there is none. */
  function FindIndex(chats: seq<Chat>, id: string): (r: Option<nat>)
    ensures r.Some? ==> r.value < |chats| && chats[r.value].id == id
    ensures r.Some? ==> forall j :: 0 <= j < r.value ==> chats[j].id != id
    ensures r.None? <==> !HasChat(chats, id)
  {
    if chats == [] then None
    else if chats[0].id == id then Some(0)
    else
      match FindIndex(chats[1..], id)
      case None =>
        assert forall j :: 1 <= j < |chats| ==> chats[j] == chats[1..][j - 1];
        None
      case Some(k) =>
        assert forall j :: 1 <= j <= k ==> chats[j] == chats[1..][j - 1];
        Some(k + 1)
  }

  /** `chats.find(c => c.id === id)`, with `None` for `undefined`. */
  function FindChat(chats: seq<Chat>, id: string): (r: Option<Chat>)
    ensures r.Some? ==> r.value in chats && r.value.id == id
    ensures r.Some? ==>
      exists k :: 0 <= k < |chats| && r.value == chats[k] && forall j :: 0 <= j < k ==> chats[j].id != id
    ensures r.None? <==> !HasChat(chats, id)
  {
    match FindIndex(chats, id)
    case None => None
    case Some(k) => Some(chats[k])
  }

  /** The reducer's rename: only the first chat with that id gets the new
      title; without such a chat the list is returned as it is. */
  function RenameFirst(chats: seq<Chat>, id: string, title: string): (r: seq<Chat>)
    ensures |r| == |chats|
    ensures forall i :: 0 <= i < |r| ==> r[i].id == chats[i].id
    ensures !HasChat(chats, id) ==> r == chats
    ensures HasChat(chats, id) ==>
      var k := FindIndex(chats, id).value;
      r[k] == chats[k].(title := title) && forall j :: 0 <= j < |r| && j != k ==> r[j] == chats[j]
  {
    match FindIndex(chats, id)
    case None => chats
    case Some(k) => chats[k := chats[k].(title := title)]
  }

  /** Renaming the first match back to its previous title restores the list. */
  lemma RenameFirstRoundTrip(chats: seq<Chat>, id: string, title: string)
    requires HasChat(chats, id)
    ensures RenameFirst(RenameFirst(chats, id, title), id, chats[FindIndex(chats, id).value].title) == chats
  {
    var k := FindIndex(chats, id).value;
    var r := chats[k := chats[k].(title := title)];
    assert RenameFirst(chats, id, title) == r;
    assert r[k].id == id;
    assert FindIndex(r, id) == Some(k) by {
      assert forall j :: 0 <= j < k ==> r[j] == chats[j];
    }
    assert r[k := chats[k]] == chats;
  }

  /** The sidebar's rename, `chats.map(c => c.id === id ? {...c, title} : c)`:
      every chat with that id gets the new title. */
  function RenameAll(chats: seq<Chat>, id: string, title: string): (r: seq<Chat>)
    ensures |r| == |chats|
    ensures forall i :: 0 <= i < |r| ==>
      r[i] == (if chats[i].id == id then chats[i].(title := title) else chats[i])
  {
    if chats == [] then []
    else
      var head := if chats[0].id == id then chats[0].(title := title) else chats[0];
      [head] + RenameAll(chats[1..], id, title)
  }

  /** When ids are unique the two renames agree. */
  lemma RenameAllIsRenameFirstWhenUnique(chats: seq<Chat>, id: string, title: string)
    requires UniqueIds(chats)
    ensures RenameAll(chats, id, title) == RenameFirst(chats, id, title)
  {
    var a := RenameAll(chats, id, title);
    var b := RenameFirst(chats, id, title);
    forall i | 0 <= i < |chats|
      ensures a[i] == b[i]
    {
    }
  }
}

=== FILE: chat_slice.dfy ===
/** The Redux slice that holds the chat list: its initial state, the
    `setInitialChats` reducer and the reducer cases for the lifecycle actions
    of the `fetchChats`, `createNewChat`, `deleteChat` and `renameChat`
    thunks. The thunks' network calls are outside; an action carries the
    payload the thunk settled with. */
module ChatSlice {
  import opened Types
  import opened ChatLists

  datatype FetchStatus = Idle | Loading | Succeeded | Failed

  datatype ChatListState = ChatListState(chats: seq<Chat>, status: FetchStatus, error: Option<string>)

  /** The actions the slice's reducer is given. The pending and rejected
      actions of the create, delete and rename thunks have no case in the
      reducer and are listed so that their effect (none) is stated. */
  datatype Action =
    | SetInitialChats(payload: seq<Chat>)
    | FetchPending
    | FetchFulfilled(chats: seq<Chat>)
    | FetchRejected(message: Option<string>)
    | CreatePending
    | CreateFulfilled(chat: Chat)
    | CreateRejected(reason: Option<string>)
    | DeletePending(chatId: string)
    | DeleteFulfilled(deletedId: string)
    | DeleteRejected(reason: Option<string>)
    | RenamePending(chatId: string, newTitle: string)
    | RenameFulfilled(renamedId: string, title: string)
    | RenameRejected(reason: Option<string>)

  /** `initialState`. */
  function InitialState(): (s: ChatListState)
    ensures s.chats == [] && s.status == Idle && s.error.None?
  {
    ChatListState([], Idle, None)
  }

  /** `action.error.message || null`: an absent or empty message is `null`. */
  function ErrorOrNull(message: Option<string>): (r: Option<string>)
    ensures r.Some? <==> message.Some? && message.value != ""
    ensures r.Some? ==> r == message
  {
    match message
    case Some(m) => if m != "" then Some(m) else None
    case None => None
  }

  /** The slice reducer. */
  function Reduce(s: ChatListState, a: Action): (r: ChatListState)
    ensures !a.FetchRejected? ==> r.error == s.error
    ensures r.status != s.status ==> a.SetInitialChats? || a.FetchPending? || a.FetchFulfilled? || a.FetchRejected?
    ensures a.FetchPending? || a.FetchRejected? ==> r.chats == s.chats
  {
    match a
    case SetInitialChats(p) =>
      if |s.chats| == 0 then s.(chats := p, status := Succeeded) else s
    case FetchPending => s.(status := Loading)
    case FetchFulfilled(p) => s.(status := Succeeded, chats := p)
    case FetchRejected(m) => s.(status := Failed, error := ErrorOrNull(m))
    case CreateFulfilled(c) => s.(chats := [c] + s.chats)
    case DeleteFulfilled(id) => s.(chats := WithoutChat(s.chats, id))
    case RenameFulfilled(id, t) => s.(chats := RenameFirst(s.chats, id, t))
    case _ => s
  }

  /** The state after a sequence of dispatched actions. */
  function Run(s: ChatListState, actions: seq<Action>): ChatListState
    decreases |actions|
  {
    if actions == [] then s else Run(Reduce(s, actions[0]), actions[1..])
  }

  /** From the initial state hydration always takes the payload. */
  lemma InitialStateHydrates(p: seq<Chat>)
    ensures InitialState().chats == [] && InitialState().status == Idle && InitialState().error.None?
    ensures Reduce(InitialState(), SetInitialChats(p)) == ChatListState(p, Succeeded, None)
  {
  }

  /** `setInitialChats` replaces the list and marks it loaded exactly when
      the list is empty, and otherwise leaves the state as it is. */
  lemma SetInitialChatsOnlyWhenEmpty(s: ChatListState, p: seq<Chat>)
    ensures var r := Reduce(s, SetInitialChats(p));
      (s.chats == [] ==> r == ChatListState(p, Succeeded, s.error)) &&
      (s.chats != [] ==> r == s)
  {
  }

  /** Hydration with a non-empty payload happens at most once: later
      hydrations are ignored. */
  lemma HydrationIsOnce(s: ChatListState, p: seq<Chat>, q: seq<Chat>)
    requires p != []
    ensures Reduce(Reduce(s, SetInitialChats(p)), SetInitialChats(q)) == Reduce(s, SetInitialChats(p))
  {
  }

  /** The fetch lifecycle: pending only marks loading; fulfilled replaces the
      list wholesale and keeps a previous error; rejected records the error
      and keeps the list. */
  lemma FetchLifecycle(s: ChatListState, p: seq<Chat>, m: Option<string>)
    ensures Reduce(s, FetchPending) == ChatListState(s.chats, Loading, s.error)
    ensures Reduce(s, FetchFulfilled(p)) == ChatListState(p, Succeeded, s.error)
    ensures Reduce(s, FetchRejected(m)).chats == s.chats
    ensures Reduce(s, FetchRejected(m)).status == Failed
    ensures Reduce(s, FetchRejected(m)).error == if m.Some? && m.value != "" then m else None
  {
  }

  /** A failed fetch followed by a successful one leaves the old error in
      place next to the `succeeded` status. */
  lemma ErrorSurvivesRefetch(s: ChatListState, message: string, p: seq<Chat>)
    requires message != ""
    ensures Run(s, [FetchRejected(Some(message)), FetchPending, FetchFulfilled(p)])
      == ChatListState(p, Succeeded, Some(message))
  {
    var acts := [FetchRejected(Some(message)), FetchPending, FetchFulfilled(p)];
    var s1 := Reduce(s, acts[0]);
    var s2 := Reduce(s1, acts[1]);
    assert acts[1..][1..] == [FetchFulfilled(p)];
    assert Run(s2, [FetchFulfilled(p)]) == Run(Reduce(s2, FetchFulfilled(p)), []);
  }

  /** `unshift`: the new chat is at the front and the old list follows. */
  lemma CreatePrepends(s: ChatListState, c: Chat)
    ensures var r := Reduce(s, CreateFulfilled(c));
      |r.chats| == |s.chats| + 1 && r.chats[0] == c && r.chats[1..] == s.chats &&
      r.status == s.status && r.error == s.error
  {
  }

  /** After a delete no chat carries the id, every other chat is kept with
      all its copies, and the kept chats are in their old order. */
  lemma DeleteRemovesId(s: ChatListState, id: string)
    ensures var r := Reduce(s, DeleteFulfilled(id));
      !HasChat(r.chats, id) &&
      (forall c :: c in r.chats <==> c in s.chats && c.id != id) &&
      (forall c :: multiset(r.chats)[c] == if c.id != id then multiset(s.chats)[c] else 0) &&
      Subsequence(r.chats, s.chats) &&
      r.status == s.status && r.error == s.error
  {
  }

  /** Deleting a chat that was just created with a fresh id undoes the
      creation. */
  lemma CreateThenDeleteRestores(s: ChatListState, c: Chat)
    requires !HasChat(s.chats, c.id)
    ensures Reduce(Reduce(s, CreateFulfilled(c)), DeleteFulfilled(c.id)) == s
  {
    WithoutFreshChat(s.chats, c);
  }

  /** Deleting the same id twice is deleting it once. */
  lemma DeleteIdempotent(s: ChatListState, id: string)
    ensures Reduce(Reduce(s, DeleteFulfilled(id)), DeleteFulfilled(id)) == Reduce(s, DeleteFulfilled(id))
  {
    WithoutChatIdempotent(s.chats, id);
  }

  /** A rename keeps the list's length and every id; it changes only the
      title of the first chat with the id, and is a no-op when none has it. */
  lemma RenameChangesOnlyFirstTitle(s: ChatListState, id: string, t: string)
    ensures var r := Reduce(s, RenameFulfilled(id, t));
      |r.chats| == |s.chats| &&
      (forall i :: 0 <= i < |r.chats| ==> r.chats[i].id == s.chats[i].id) &&
      (!HasChat(s.chats, id) ==> r == s) &&
      (HasChat(s.chats, id) ==>
        var k := FindIndex(s.chats, id).value;
        r.chats[k].title == t && r.chats[k] == s.chats[k].(title := t) &&
        (forall j :: 0 <= j < k ==> s.chats[j].id != id) &&
        (forall j :: 0 <= j < |r.chats| && j != k ==> r.chats[j] == s.chats[j])) &&
      r.status == s.status && r.error == s.error
  {
  }

  /** Renaming back to the old title restores the list. */
  lemma RenameRoundTrip(s: ChatListState, id: string, t: string)
    requires HasChat(s.chats, id)
    ensures var before := s.chats[FindIndex(s.chats, id).value].title;
      Reduce(Reduce(s, RenameFulfilled(id, t)), RenameFulfilled(id, before)) == s
  {
    var before := s.chats[FindIndex(s.chats, id).value].title;
    var renamed := Reduce(s, RenameFulfilled(id, t));
    assert renamed == s.(chats := RenameFirst(s.chats, id, t));
    assert Reduce(renamed, RenameFulfilled(id, before)) == s.(chats := RenameFirst(renamed.chats, id, before));
    RenameFirstRoundTrip(s.chats, id, t);
  }

  /** The actions without a reducer case leave the state unchanged. */
  lemma UnhandledActionsChangeNothing(s: ChatListState, a: Action)
    requires a.CreatePending? || a.CreateRejected? || a.DeletePending? || a.DeleteRejected? ||
             a.RenamePending? || a.RenameRejected?
    ensures Reduce(s, a) == s
  {
  }

  /** Reference reading of `error`: scanning back from the last action, the
      last `fetchChats.rejected` decides; nothing else ever writes it. */
  function LastError(start: Option<string>, actions: seq<Action>): Option<string>
    decreases |actions|
  {
    if actions == [] then start
    else match actions[|actions| - 1]
      case FetchRejected(m) => ErrorOrNull(m)
      case _ => LastError(start, actions[..|actions| - 1])
  }

  lemma {:induction false} RunAppend(s: ChatListState, actions: seq<Action>, a: Action)
    ensures Run(s, actions + [a]) == Reduce(Run(s, actions), a)
    decreases |actions|
  {
    if actions != [] {
      assert (actions + [a])[0] == actions[0];
      assert (actions + [a])[1..] == actions[1..] + [a];
      RunAppend(Reduce(s, actions[0]), actions[1..], a);
    }
  }

  /** After any sequence of actions, `error` is what the last rejected fetch
      set, or the starting value when no fetch was rejected. */
  lemma {:induction false} ErrorIsLastRejection(s: ChatListState, actions: seq<Action>)
    ensures Run(s, actions).error == LastError(s.error, actions)
    decreases |actions|
  {
    if actions != [] {
      var init := actions[..|actions| - 1];
      assert actions == init + [actions[|actions| - 1]];
      RunAppend(s, init, actions[|actions| - 1]);
      ErrorIsLastRejection(s, init);
    }
  }
}

=== FILE: chat_view.dfy ===
/** The state transitions of the chat view: sending a message, uploading a
    document and removing a document. Each handler is one sequential step
    given the replies of the calls it awaits and the clock readings it
    takes; the request issue, the toast calls and the state updates are
    its outputs. */
module ChatView {
  import opened Types
  import opened Effects
  import opened ChatLists
  import Api
  import Text

  /** The view's props that matter (`chatId`) and its `useState` cells. */
  datatype ViewState = ViewState(
    chatId: string,
    messages: seq<Message>,
    documents: seq<Document>,
    chatDetails: Option<Chat>,
    isSending: bool,
    isUploading: bool)

  /** The state as the view mounts with its initial props. */
  function Mount(chatId: string, messages: seq<Message>, documents: seq<Document>, details: Chat): (s: ViewState)
    ensures s.chatId == chatId && s.messages == messages && s.documents == documents
    ensures s.chatDetails == Some(details)
    ensures !s.isSending && !s.isUploading
  {
    ViewState(chatId, messages, documents, Some(details), false, false)
  }

  /** The `disabled` prop handed to the input box. */
  predicate InputDisabled(s: ViewState) {
    s.isSending || s.isUploading
  }

  /** Only the transcript and the sending flag may differ. */
  predicate SameApartFromTranscript(a: ViewState, b: ViewState) {
    && a.chatId == b.chatId
    && a.documents == b.documents
    && a.chatDetails == b.chatDetails
    && a.isUploading == b.isUploading
  }

  const SendErrorText := "Sorry, an error occurred."

  /** The optimistic user message, stamped with the clock reading taken
      when the send starts. */
  function UserMessage(text: string, at: Instant): (m: Message)
    ensures m.sender == User && m.text == text
    ensures m.id == Text.NatToDecimal(at.millis) && m.timestamp == at.iso
    ensures m.isError.None? && m.hasContext.None? && m.sourceReferences.None?
  {
    Message(Text.NatToDecimal(at.millis), text, User, at.iso, None, None, None)
  }

  /** The synthetic message appended when a send fails; its id is one past
      the clock reading taken in the error handler. */
  function ErrorReply(at: Instant): (m: Message)
    ensures m.sender == Bot && m.isError == Some(true) && m.text == SendErrorText
    ensures m.id == Text.NatToDecimal(at.millis + 1) && m.timestamp == at.iso
    ensures m.hasContext.None? && m.sourceReferences.None?
  {
    Message(Text.NatToDecimal(at.millis + 1), SendErrorText, Bot, at.iso, Some(true), None, None)
  }

  /** The part of `handleSendMessage` before the request settles: the flag
      is raised and the user message is on the transcript when the request
      is issued. */
  function SendStarted(s: ViewState, text: string, at: Instant): (r: Step<ViewState>)
    ensures r.state.isSending
    ensures r.state.messages == s.messages + [UserMessage(text, at)]
    ensures SameApartFromTranscript(r.state, s)
    ensures r.requests == [SendMessage(s.chatId, text)]
    ensures r.toasts == [] && r.navigation.None?
  {
    Step(s.(isSending := true, messages := s.messages + [UserMessage(text, at)]),
         [SendMessage(s.chatId, text)], [], None)
  }

  /** The message the transcript gets once the request has settled. */
  function ReplyFor(reply: Api.Reply<Api.BotResponse>, settledAt: Instant): (m: Message)
    ensures m.sender == Bot
    ensures Api.SendMessageToChat(reply, settledAt).Ok? ==> m == Api.SendMessageToChat(reply, settledAt).value
    ensures Api.SendMessageToChat(reply, settledAt).Err? ==> m == ErrorReply(settledAt)
  {
    match Api.SendMessageToChat(reply, settledAt)
    case Ok(bot) => bot
    case Err(_) => ErrorReply(settledAt)
  }

  /** The part of `handleSendMessage` after the request settles: one reply
      appended, an error toast on failure, and the flag lowered in the
      `finally` block on both outcomes. */
  function SendSettled(s: ViewState, reply: Api.Reply<Api.BotResponse>, settledAt: Instant): (r: Step<ViewState>)
    ensures r.state.messages == s.messages + [ReplyFor(reply, settledAt)]
    ensures !r.state.isSending
    ensures SameApartFromTranscript(r.state, s)
    ensures r.toasts == [] <==> Api.SendMessageToChat(reply, settledAt).Ok?
    ensures r.toasts != [] ==> r.toasts == [Toast(Error, "Failed to send message", None)]
    ensures r.requests == [] && r.navigation.None?
  {
    var toasts := if Api.SendMessageToChat(reply, settledAt).Ok? then []
                  else [Toast(Error, "Failed to send message", None)];
    Step(s.(messages := s.messages + [ReplyFor(reply, settledAt)], isSending := false), [], toasts, None)
  }

  /** `handleSendMessage(text)` from start to finish. */
  function HandleSendMessage(s: ViewState, text: string, sentAt: Instant,
                             reply: Api.Reply<Api.BotResponse>, settledAt: Instant): (r: Step<ViewState>)
    ensures r.state.messages == s.messages + [UserMessage(text, sentAt), ReplyFor(reply, settledAt)]
    ensures !r.state.isSending
    ensures SameApartFromTranscript(r.state, s)
    ensures r.requests == [SendMessage(s.chatId, text)]
  {
    var started := SendStarted(s, text, sentAt);
    var settled := SendSettled(started.state, reply, settledAt);
    assert started.state.messages + [ReplyFor(reply, settledAt)]
        == s.messages + [UserMessage(text, sentAt), ReplyFor(reply, settledAt)];
    Step(settled.state, started.requests, settled.toasts, None)
  }

  /** On success the transcript grows by the user message and the bot's
      reply; on failure by the user message and the error message, so the
      user's text is never retracted. */
  lemma SendOutcomes(s: ViewState, text: string, sentAt: Instant,
                     reply: Api.Reply<Api.BotResponse>, settledAt: Instant)
    ensures var r := HandleSendMessage(s, text, sentAt, reply, settledAt);
      var res := Api.SendMessageToChat(reply, settledAt);
      (res.Ok? ==> r.state.messages == s.messages + [UserMessage(text, sentAt), res.value] && r.toasts == []) &&
      (res.Err? ==> r.state.messages == s.messages + [UserMessage(text, sentAt), ErrorReply(settledAt)] &&
                    r.toasts == [Toast(Error, "Failed to send message", None)])
  {
  }

  /** The input box is disabled while the send is in flight, and the send
      alone never keeps it disabled: afterwards only an upload can. */
  lemma SendDisablesInputUntilSettled(s: ViewState, text: string, sentAt: Instant,
                                      reply: Api.Reply<Api.BotResponse>, settledAt: Instant)
    ensures InputDisabled(SendStarted(s, text, sentAt).state)
    ensures InputDisabled(HandleSendMessage(s, text, sentAt, reply, settledAt).state) <==> s.isUploading
  {
  }

  /** One send: the text and what the clock and the backend delivered. */
  datatype Exchange = Exchange(text: string, sentAt: Instant, reply: Api.Reply<Api.BotResponse>, settledAt: Instant)

  /** The view after a series of sends, each settling before the next. */
  function RunSends(s: ViewState, xs: seq<Exchange>): ViewState
    decreases |xs|
  {
    if xs == [] then s
    else
      var x := xs[0];
      RunSends(HandleSendMessage(s, x.text, x.sentAt, x.reply, x.settledAt).state, xs[1..])
  }

  /** The two messages one send adds: the user's, then its reply. */
  function Turn(x: Exchange): seq<Message> {
    [UserMessage(x.text, x.sentAt), ReplyFor(x.reply, x.settledAt)]
  }

  /** Reference transcript of a series of sends: each user message, then
      its reply. */
  function Expected(xs: seq<Exchange>): seq<Message> {
    FlatMap(xs, Turn)
  }

  /** The reference transcript alternates: position 2i is the i-th user
      message and position 2i+1 the bot or error message answering it. */
  lemma ExpectedAlternates(xs: seq<Exchange>)
    ensures |Expected(xs)| == 2 * |xs|
    ensures forall i :: 0 <= i < |xs| ==>
      Expected(xs)[2 * i] == UserMessage(xs[i].text, xs[i].sentAt) &&
      Expected(xs)[2 * i + 1] == ReplyFor(xs[i].reply, xs[i].settledAt) &&
      Expected(xs)[2 * i].sender == User && Expected(xs)[2 * i + 1].sender == Bot
  {
    FlatMapOfPairsLength(xs, Turn);
    forall i | 0 <= i < |xs|
      ensures Expected(xs)[2 * i] == UserMessage(xs[i].text, xs[i].sentAt)
      ensures Expected(xs)[2 * i + 1] == ReplyFor(xs[i].reply, xs[i].settledAt)
    {
      FlatMapOfPairsAt(xs, Turn, i);
      assert Turn(xs[i])[0] == UserMessage(xs[i].text, xs[i].sentAt);
    }
  }

  /** One send of a series, in the terms the induction below needs. */
  lemma SendStep(s: ViewState, x: Exchange)
    ensures var next := HandleSendMessage(s, x.text, x.sentAt, x.reply, x.settledAt).state;
      next.messages == s.messages + Turn(x) &&
      !next.isSending && SameApartFromTranscript(next, s)
  {
  }

  /** A series of sends appends exactly the reference transcript to the old
      one, and the view ends up not sending; nothing else changes. */
  lemma {:induction false} SendsFollowCallOrder(s: ViewState, xs: seq<Exchange>)
    ensures RunSends(s, xs).messages == s.messages + Expected(xs)
    ensures xs != [] ==> !RunSends(s, xs).isSending
    ensures SameApartFromTranscript(RunSends(s, xs), s)
    decreases |xs|
  {
    if xs != [] {
      var x := xs[0];
      var pair := Turn(x);
      var next := HandleSendMessage(s, x.text, x.sentAt, x.reply, x.settledAt).state;
      SendStep(s, x);
      SendsFollowCallOrder(next, xs[1..]);
      calc {
        RunSends(s, xs).messages;
        RunSends(next, xs[1..]).messages;
        next.messages + Expected(xs[1..]);
        (s.messages + pair) + Expected(xs[1..]);
        s.messages + (pair + Expected(xs[1..]));
        s.messages + Expected(xs);
      }
      if xs[1..] == [] {
        assert RunSends(next, xs[1..]) == next;
      }
    }
  }

  /** The state while the upload is in flight. */
  function UploadStarted(s: ViewState): (r: ViewState)
    ensures r.isUploading && InputDisabled(r)
    ensures r.(isUploading := s.isUploading) == s
  {
    s.(isUploading := true)
  }

  /** `handleFileUpload(file)`: upload, then refresh documents and chat
      details together; the flag is lowered in `finally`. The uploaded
      payload is ignored. When the chat-list refresh yields `null`,
      `setDocuments` has already run before `chats.find` throws. */
  function HandleFileUpload<T>(s: ViewState, file: Option<File>, upload: Api.Reply<T>,
                               docsReply: Api.Reply<Api.PdfsBody>,
                               chatsReply: Api.Reply<seq<Chat>>): (r: Step<ViewState>)
    ensures file.None? ==> Inert(s, r)
    ensures file.Some? ==> !r.state.isUploading
    ensures r.state.messages == s.messages && r.state.isSending == s.isSending && r.state.chatId == s.chatId
    ensures file.Some? ==> |r.requests| > 0 && r.requests[0] == UploadFile(s.chatId, file.value.name)
    ensures file.Some? ==> |r.toasts| > 0 && r.toasts[0] == Toast(Info, "Uploading document...", Some(file.value.name))
    ensures r.navigation.None?
  {
    match file
    case None => Step(s, [], [], None)
    case Some(f) =>
      var begun := [Toast(Info, "Uploading document...", Some(f.name))];
      var uploaded := Api.UploadFile(upload).result;
      if uploaded.Err? then
        Step(s.(isUploading := false), [UploadFile(s.chatId, f.name)],
             begun + [Toast(Error, "Upload failed", Api.ErrorText(uploaded.error))], None)
      else
        var requests := [UploadFile(s.chatId, f.name), GetChatDocs(s.chatId), GetChats];
        var done := begun + [Toast(Success, "Upload complete!", Some(f.name + " is ready."))];
        var docs := Api.GetChatDocs(docsReply);
        match Api.Call(chatsReply)
        case Err(e) =>
          Step(s.(isUploading := false), requests, done + [Toast(Error, "Upload failed", Api.ErrorText(e))], None)
        case Ok(None) =>
          Step(s.(documents := docs, isUploading := false), requests, done + [Toast(Error, "Upload failed", None)], None)
        case Ok(Some(chats)) =>
          Step(s.(documents := docs, chatDetails := FindChat(chats, s.chatId), isUploading := false),
               requests, done, None)
  }

  /** A failed upload refreshes nothing: documents and chat details stay. */
  lemma UploadFailureKeepsDocuments<T>(s: ViewState, f: File, upload: Api.Reply<T>,
                                       docsReply: Api.Reply<Api.PdfsBody>, chatsReply: Api.Reply<seq<Chat>>)
    requires Api.UploadFile(upload).result.Err?
    ensures var r := HandleFileUpload(s, Some(f), upload, docsReply, chatsReply);
      r.state == s.(isUploading := false) &&
      r.requests == [UploadFile(s.chatId, f.name)] &&
      r.toasts[|r.toasts| - 1].kind == Error
  {
  }

  /** After a successful upload and refresh the document list is the
      server's list, replacing the local one wholesale, and the chat details
      are the first listed chat with the view's id, or none when it is not
      listed. */
  lemma UploadSuccessReplacesDocuments<T>(s: ViewState, f: File, upload: Api.Reply<T>,
                                          docsReply: Api.Reply<Api.PdfsBody>,
                                          chatsReply: Api.Reply<seq<Chat>>, chats: seq<Chat>)
    requires Api.UploadFile(upload).result.Ok?
    requires Api.Call(chatsReply) == Ok(Some(chats))
    ensures var r := HandleFileUpload(s, Some(f), upload, docsReply, chatsReply);
      r.state == s.(documents := Api.GetChatDocs(docsReply), chatDetails := FindChat(chats, s.chatId),
                    isUploading := false) &&
      (r.state.chatDetails.Some? ==>
        exists k :: 0 <= k < |chats| && r.state.chatDetails.value == chats[k] && chats[k].id == s.chatId &&
          forall j :: 0 <= j < k ==> chats[j].id != s.chatId) &&
      (r.state.chatDetails.None? <==> !HasChat(chats, s.chatId)) &&
      r.requests == [UploadFile(s.chatId, f.name), GetChatDocs(s.chatId), GetChats] &&
      r.toasts == [Toast(Info, "Uploading document...", Some(f.name)),
                   Toast(Success, "Upload complete!", Some(f.name + " is ready."))]
  {
  }

  /** When the chat-list refresh fails after a successful upload, the
      combined refresh rejects before anything is stored: documents and chat
      details stay, and the completion toast is followed by a failure toast. */
  lemma UploadRefreshFailureKeepsState<T>(s: ViewState, f: File, upload: Api.Reply<T>,
                                          docsReply: Api.Reply<Api.PdfsBody>, chatsReply: Api.Reply<seq<Chat>>)
    requires Api.UploadFile(upload).result.Ok?
    requires Api.Call(chatsReply).Err?
    ensures var r := HandleFileUpload(s, Some(f), upload, docsReply, chatsReply);
      r.state == s.(isUploading := false) &&
      r.requests == [UploadFile(s.chatId, f.name), GetChatDocs(s.chatId), GetChats] &&
      r.toasts == [Toast(Info, "Uploading document...", Some(f.name)),
                   Toast(Success, "Upload complete!", Some(f.name + " is ready.")),
                   Toast(Error, "Upload failed", Api.ErrorText(Api.Call(chatsReply).error))]
  {
  }

  /** When the chat-list refresh yields `null`, the documents are already
      replaced when the lookup in the list throws: the chat details stay and
      a failure toast follows the completion toast. */
  lemma UploadNullChatListKeepsDetails<T>(s: ViewState, f: File, upload: Api.Reply<T>,
                                          docsReply: Api.Reply<Api.PdfsBody>, chatsReply: Api.Reply<seq<Chat>>)
    requires Api.UploadFile(upload).result.Ok?
    requires Api.Call(chatsReply) == Ok(None)
    ensures var r := HandleFileUpload(s, Some(f), upload, docsReply, chatsReply);
      r.state == s.(documents := Api.GetChatDocs(docsReply), isUploading := false) &&
      r.toasts == [Toast(Info, "Uploading document...", Some(f.name)),
                   Toast(Success, "Upload complete!", Some(f.name + " is ready.")),
                   Toast(Error, "Upload failed", None)]
  {
  }

  /** `handleDeleteDoc(name)`: nothing happens without confirmation; a
      successful delete drops every document of that name and keeps every
      copy of the rest, in order; a failed one only raises a toast. */
  function HandleDeleteDoc<T>(s: ViewState, name: string, confirmed: bool, reply: Api.Reply<T>): (r: Step<ViewState>)
    ensures !confirmed ==> Inert(s, r)
    ensures confirmed ==> r.requests == [DeleteDoc(s.chatId, name)]
    ensures confirmed && Api.Call(reply).Ok? ==>
      r.state == s.(documents := r.state.documents) &&
      (forall d :: d in r.state.documents <==> d in s.documents && d.name != name) &&
      (forall d :: multiset(r.state.documents)[d] == if d.name != name then multiset(s.documents)[d] else 0) &&
      Subsequence(r.state.documents, s.documents) &&
      r.toasts == [Toast(Success, "Document removed", None)]
    ensures confirmed && Api.Call(reply).Err? ==>
      r.state == s && r.toasts == [Toast(Error, "Failed to remove document", Api.ErrorText(Api.Call(reply).error))]
    ensures r.navigation.None?
  {
    if !confirmed then Step(s, [], [], None)
    else match Api.Call(reply)
      case Ok(_) =>
        Step(s.(documents := WithoutDocument(s.documents, name)), [DeleteDoc(s.chatId, name)],
             [Toast(Success, "Document removed", None)], None)
      case Err(e) =>
        Step(s, [DeleteDoc(s.chatId, name)], [Toast(Error, "Failed to remove document", Api.ErrorText(e))], None)
  }
}

=== FILE: effects.dfy ===
/** What an event handler does besides changing its component's state: the
    backend requests it issues, the toast notifications it raises and the
    route it navigates to. The transport, the toast library and the router
    are outside the model; these values stand for the calls made to them. */
module Effects {
  import opened Types

  /** The `type` argument of `addToast`. */
  datatype ToastType = Success | Error | Info | Warning | Default

  /** One `addToast(type, title, message?)` call. */
  datatype Toast = Toast(kind: ToastType, title: string, message: Option<string>)

  /** One call into the API client, with the arguments the handler passes. */
  datatype Request =
    | SendMessage(chatId: string, text: string)
    | UploadFile(chatId: string, fileName: string)
    | GetChatDocs(chatId: string)
    | GetChats
    | CreateChat
    | DeleteChat(chatId: string)
    | RenameChat(chatId: string, title: string)
    | DeleteDoc(chatId: string, docName: string)

  /** The result of one handler run: the component's new state, the requests
      issued in order, the toasts raised in order, and an optional
      `router.push` target. */
  datatype Step<S> = Step(
    state: S,
    requests: seq<Request>,
    toasts: seq<Toast>,
    navigation: Option<string>)

  /** A handler run that changed nothing and called nothing. */
  predicate Inert<S(==)>(before: S, step: Step<S>) {
    step.state == before && step.requests == [] && step.toasts == [] && step.navigation == None
  }
}

=== FILE: sidebar.dfy ===
/** The sidebar's chat-list editing: creating, deleting and renaming chats,
    the inline-edit fields, and the refresh on navigation. `window.confirm`
    is a boolean input, the active route's chat id an optional input, and
    `router.push` the step's navigation output. */
module Sidebar {
  import opened Types
  import opened Effects
  import opened ChatLists
  import Api
  import Text

  /** The sidebar's `useState` cells. */
  datatype SidebarState = SidebarState(chats: seq<Chat>, editingChatId: Option<string>, editTitle: string)

  /** The state as the sidebar mounts with its initial chats. */
  function Mount(initialChats: seq<Chat>): (s: SidebarState)
    ensures s.chats == initialChats && s.editingChatId.None? && s.editTitle == ""
  {
    SidebarState(initialChats, None, "")
  }

  /** The route of a chat. */
  function ChatPath(id: string): (p: string)
    ensures |p| == |id| + 3 && p[..3] == "/c/" && p[3..] == id
  {
    "/c/" + id
  }

  /** `fetchChats`: a fresh list replaces the old one; a failure keeps it. */
  function RefreshChats(s: SidebarState, reply: Api.Reply<seq<Chat>>): (r: Step<SidebarState>)
    ensures r.requests == [GetChats]
    ensures Api.Call(reply).Ok? && Api.Call(reply).value.Some? ==>
      r.state == s.(chats := Api.Call(reply).value.value) && r.toasts == []
    ensures Api.Call(reply).Err? ==>
      r.state == s && r.toasts == [Toast(Error, "Could not refresh chats", None)]
    ensures r.navigation.None?
  {
    match Api.Call(reply)
    case Ok(Some(latest)) => Step(s.(chats := latest), [GetChats], [], None)
    // A `null` list would be stored as is; the model keeps the old list.
    case Ok(None) => Step(s, [GetChats], [], None)
    case Err(_) => Step(s, [GetChats], [Toast(Error, "Could not refresh chats", None)], None)
  }

  /** `handleCreateChat`: the new chat goes to the front and the view
      navigates to it; a failure only raises a toast. */
  function HandleCreateChat(s: SidebarState, outcome: Result<Chat, Api.ApiError>): (r: Step<SidebarState>)
    ensures r.requests == [CreateChat]
    ensures outcome.Ok? ==>
      r.state == s.(chats := [outcome.value] + s.chats) &&
      r.navigation == Some(ChatPath(outcome.value.id)) && r.toasts == []
    ensures outcome.Err? ==>
      r.state == s && r.navigation.None? && r.toasts == [Toast(Error, "Failed to create chat", None)]
  {
    match outcome
    case Ok(c) => Step(s.(chats := [c] + s.chats), [CreateChat], [], Some(ChatPath(c.id)))
    case Err(_) => Step(s, [CreateChat], [Toast(Error, "Failed to create chat", None)], None)
  }

  /** `handleDeleteChat(id)`: nothing without confirmation; on success the
      chat is filtered out and the view goes home exactly when the deleted
      chat is the active one. */
  function HandleDeleteChat<T>(s: SidebarState, id: string, active: Option<string>,
                               confirmed: bool, reply: Api.Reply<T>): (r: Step<SidebarState>)
    ensures !confirmed ==> Inert(s, r)
    ensures confirmed ==> r.requests == [DeleteChat(id)]
    ensures confirmed && Api.Call(reply).Ok? ==>
      r.state == s.(chats := r.state.chats) &&
      !HasChat(r.state.chats, id) &&
      (forall c :: c in r.state.chats <==> c in s.chats && c.id != id) &&
      (forall c :: multiset(r.state.chats)[c] == if c.id != id then multiset(s.chats)[c] else 0) &&
      Subsequence(r.state.chats, s.chats) &&
      r.toasts == [Toast(Success, "Chat deleted", None)] &&
      (r.navigation == Some("/") <==> active == Some(id)) &&
      (r.navigation.Some? ==> r.navigation == Some("/"))
    ensures confirmed && Api.Call(reply).Err? ==>
      r.state == s && r.navigation.None? && r.toasts == [Toast(Error, "Failed to delete chat", None)]
  {
    if !confirmed then Step(s, [], [], None)
    else match Api.Call(reply)
      case Ok(_) =>
        Step(s.(chats := WithoutChat(s.chats, id)), [DeleteChat(id)], [Toast(Success, "Chat deleted", None)],
             if active == Some(id) then Some("/") else None)
      case Err(_) => Step(s, [DeleteChat(id)], [Toast(Error, "Failed to delete chat", None)], None)
  }

  /** Creating a chat with a fresh id, and then deleting it from the route
      the creation navigated to, gives back the old list and returns home. */
  lemma CreateThenDeleteRestores<T>(s: SidebarState, c: Chat, reply: Api.Reply<T>)
    requires !HasChat(s.chats, c.id) && Api.Call(reply).Ok?
    ensures var created := HandleCreateChat(s, Ok(c));
      var deleted := HandleDeleteChat(created.state, c.id, Some(c.id), true, reply);
      created.navigation == Some(ChatPath(c.id)) && deleted.state == s && deleted.navigation == Some("/")
  {
    WithoutFreshChat(s.chats, c);
  }

  /** `handleSaveEdit(id)`. A blank title returns before the `try`: no
      rename is requested and the edit fields stay as they are. Otherwise
      the rename is requested with the untrimmed title, every chat with the
      id takes it on success, and the `finally` block closes the editor on
      both outcomes. */
  function HandleSaveEdit<T>(s: SidebarState, id: string, reply: Api.Reply<T>): (r: Step<SidebarState>)
    ensures Text.Blank(s.editTitle) ==> Inert(s, r)
    ensures !Text.Blank(s.editTitle) ==>
      r.requests == [RenameChat(id, s.editTitle)] &&
      r.state.editingChatId.None? && r.state.editTitle == ""
    ensures !Text.Blank(s.editTitle) && Api.Call(reply).Ok? ==>
      r.state.chats == RenameAll(s.chats, id, s.editTitle) && r.toasts == [Toast(Success, "Chat renamed", None)]
    ensures !Text.Blank(s.editTitle) && Api.Call(reply).Err? ==>
      r.state.chats == s.chats && r.toasts == [Toast(Error, "Failed to rename chat", None)]
    ensures r.navigation.None?
  {
    if Text.Blank(s.editTitle) then Step(s, [], [], None)
    else
      var closed := s.(editingChatId := None, editTitle := "");
      match Api.Call(reply)
      case Ok(_) =>
        Step(closed.(chats := RenameAll(s.chats, id, s.editTitle)), [RenameChat(id, s.editTitle)],
             [Toast(Success, "Chat renamed", None)], None)
      case Err(_) =>
        Step(closed, [RenameChat(id, s.editTitle)], [Toast(Error, "Failed to rename chat", None)], None)
  }

  /** A successful rename gives the matching chats the title as typed,
      surrounding whitespace included, and leaves every other chat alone. */
  lemma RenameKeepsOthers<T>(s: SidebarState, id: string, reply: Api.Reply<T>)
    requires !Text.Blank(s.editTitle) && Api.Call(reply).Ok?
    ensures var r := HandleSaveEdit(s, id, reply).state;
      |r.chats| == |s.chats| &&
      (forall i :: 0 <= i < |r.chats| && s.chats[i].id == id ==> r.chats[i].title == s.editTitle) &&
      (forall i :: 0 <= i < |r.chats| && s.chats[i].id == id ==> r.chats[i] == s.chats[i].(title := s.editTitle)) &&
      (forall i :: 0 <= i < |r.chats| && s.chats[i].id != id ==> r.chats[i] == s.chats[i])
  {
  }

  /** A title of only spaces, tabs or line breaks is rejected by the guard. */
  lemma WhitespaceTitleIsRejected<T>(s: SidebarState, id: string, reply: Api.Reply<T>)
    requires Text.AllWhitespace(s.editTitle)
    ensures HandleSaveEdit(s, id, reply) == Step(s, [], [], None)
  {
    Text.BlankIffAllWhitespace(s.editTitle);
  }

  /** `onStartEdit(chat)`: edit that chat, starting from its title. */
  function StartEdit(s: SidebarState, chat: Chat): (r: SidebarState)
    ensures r.editingChatId == Some(chat.id) && r.editTitle == chat.title && r.chats == s.chats
  {
    s.(editingChatId := Some(chat.id), editTitle := chat.title)
  }

  /** `onCancelEdit`: close the editor; the typed title is kept. */
  function CancelEdit(s: SidebarState): (r: SidebarState)
    ensures r.editingChatId.None? && r.editTitle == s.editTitle && r.chats == s.chats
  {
    s.(editingChatId := None)
  }

  /** `onEditChange(title)`: the typed title. */
  function EditChange(s: SidebarState, title: string): (r: SidebarState)
    ensures r.editTitle == title && r.editingChatId == s.editingChatId && r.chats == s.chats
  {
    s.(editTitle := title)
  }

  /** Starting an edit and saving it unchanged keeps every title: the
      rename writes back the title the editor started from. */
  lemma {:induction false} SaveUnchangedTitleKeepsChats<T>(s: SidebarState, chat: Chat, reply: Api.Reply<T>)
    requires chat in s.chats && UniqueIds(s.chats)
    ensures HandleSaveEdit(StartEdit(s, chat), chat.id, reply).state.chats == s.chats
  {
    if !Text.Blank(chat.title) {
      var r := RenameAll(s.chats, chat.id, chat.title);
      forall i | 0 <= i < |s.chats|
        ensures r[i] == s.chats[i]
      {
        if s.chats[i].id == chat.id {
          var k :| 0 <= k < |s.chats| && s.chats[k] == chat;
          assert k == i;
        }
      }
    }
  }
}

=== FILE: store.dfy ===
/** The client-side handoff store: two independent single-slot cells, one
    for a pending message and one for a pending file. Writing overwrites the
    cell; reading returns its value and empties it. The process-wide
    `clientState` object becomes an explicit `Mailbox` value threaded
    through the operations. */
module Store {
  import opened Types

  datatype Mailbox = Mailbox(pendingMessage: Option<string>, pendingFile: Option<File>)

  /** A value read from the store together with the store after the read. */
  datatype Read<T> = Read(value: Option<T>, mailbox: Mailbox)

  /** `clientState` as the module initialises it: both cells hold `null`. */
  function Initial(): (mb: Mailbox)
    ensures mb.pendingMessage.None? && mb.pendingFile.None?
  {
    Mailbox(None, None)
  }

  /** `store.setPendingMessage(message)`: overwrites the message cell. */
  function SetPendingMessage(mb: Mailbox, message: string): (r: Mailbox)
    ensures r.pendingMessage == Some(message)
    ensures r.pendingFile == mb.pendingFile
  {
    mb.(pendingMessage := Some(message))
  }

  /** `store.getPendingMessage()`: yields the message cell and clears it. */
  function GetPendingMessage(mb: Mailbox): (r: Read<string>)
    ensures r.value == mb.pendingMessage
    ensures r.mailbox.pendingMessage.None?
    ensures r.mailbox.pendingFile == mb.pendingFile
  {
    Read(mb.pendingMessage, mb.(pendingMessage := None))
  }

  /** `store.setPendingFile(file)`: overwrites the file cell. */
  function SetPendingFile(mb: Mailbox, file: File): (r: Mailbox)
    ensures r.pendingFile == Some(file)
    ensures r.pendingMessage == mb.pendingMessage
  {
    mb.(pendingFile := Some(file))
  }

  /** `store.getPendingFile()`: yields the file cell and clears it. */
  function GetPendingFile(mb: Mailbox): (r: Read<File>)
    ensures r.value == mb.pendingFile
    ensures r.mailbox.pendingFile.None?
    ensures r.mailbox.pendingMessage == mb.pendingMessage
  {
    Read(mb.pendingFile, mb.(pendingFile := None))
  }

  /** A message written is read back by the next read. */
  lemma SetThenGetMessage(mb: Mailbox, message: string)
    ensures GetPendingMessage(SetPendingMessage(mb, message)).value == Some(message)
  {
  }

  /** Reading twice in a row: the second read finds nothing. */
  lemma GetMessageIsReadOnce(mb: Mailbox)
    ensures GetPendingMessage(GetPendingMessage(mb).mailbox).value.None?
  {
  }

  /** Two writes before a read: the second write wins, nothing is queued. */
  lemma LastMessageWriteWins(mb: Mailbox, first: string, second: string)
    ensures SetPendingMessage(SetPendingMessage(mb, first), second) == SetPendingMessage(mb, second)
  {
  }

  /** A file written is read back once, and then the cell is empty. */
  lemma GetFileIsReadOnce(mb: Mailbox, file: File)
    ensures GetPendingFile(SetPendingFile(mb, file)).value == Some(file)
    ensures GetPendingFile(GetPendingFile(SetPendingFile(mb, file)).mailbox).value.None?
  {
  }

  /** Two file writes before a read: the second write wins. */
  lemma LastFileWriteWins(mb: Mailbox, first: File, second: File)
    ensures SetPendingFile(SetPendingFile(mb, first), second) == SetPendingFile(mb, second)
  {
  }

  /** One call on the store. */
  datatype Op = SetMessage(message: string) | TakeMessage | SetFile(file: File) | TakeFile

  /** The store after one call. */
  function Apply(mb: Mailbox, op: Op): Mailbox {
    match op
    case SetMessage(m) => SetPendingMessage(mb, m)
    case TakeMessage => GetPendingMessage(mb).mailbox
    case SetFile(f) => SetPendingFile(mb, f)
    case TakeFile => GetPendingFile(mb).mailbox
  }

  /** The store after a sequence of calls, applied first to last. */
  function Run(mb: Mailbox, ops: seq<Op>): Mailbox
    decreases |ops|
  {
    if ops == [] then mb else Run(Apply(mb, ops[0]), ops[1..])
  }

  /** Reference reading of the message cell: scanning back from the last
      call, the first message call decides; file calls are never looked at. */
  function LastMessage(start: Option<string>, ops: seq<Op>): Option<string>
    decreases |ops|
  {
    if ops == [] then start
    else match ops[|ops| - 1]
      case SetMessage(m) => Some(m)
      case TakeMessage => None
      case _ => LastMessage(start, ops[..|ops| - 1])
  }

  /** Reference reading of the file cell, symmetric to `LastMessage`. */
  function LastFile(start: Option<File>, ops: seq<Op>): Option<File>
    decreases |ops|
  {
    if ops == [] then start
    else match ops[|ops| - 1]
      case SetFile(f) => Some(f)
      case TakeFile => None
      case _ => LastFile(start, ops[..|ops| - 1])
  }

  lemma {:induction false} RunAppend(mb: Mailbox, ops: seq<Op>, op: Op)
    ensures Run(mb, ops + [op]) == Apply(Run(mb, ops), op)
    decreases |ops|
  {
    if ops != [] {
      assert (ops + [op])[0] == ops[0];
      assert (ops + [op])[1..] == ops[1..] + [op];
      RunAppend(Apply(mb, ops[0]), ops[1..], op);
    }
  }

  /** After any sequence of calls each cell holds what its last write left,
      unless a read of that same cell came after it; calls on the other cell
      play no part. */
  lemma {:induction false} RunMatchesReference(mb: Mailbox, ops: seq<Op>)
    ensures Run(mb, ops).pendingMessage == LastMessage(mb.pendingMessage, ops)
    ensures Run(mb, ops).pendingFile == LastFile(mb.pendingFile, ops)
    decreases |ops|
  {
    if ops != [] {
      var init := ops[..|ops| - 1];
      assert ops == init + [ops[|ops| - 1]];
      RunAppend(mb, init, ops[|ops| - 1]);
      RunMatchesReference(mb, init);
    }
  }

  /** Calls on the file cell only. */
  predicate FileCallsOnly(ops: seq<Op>) {
    forall i :: 0 <= i < |ops| ==> ops[i].SetFile? || ops[i].TakeFile?
  }

  /** Any sequence of file calls leaves the message cell as it was. */
  lemma {:induction false} FileCallsLeaveMessage(mb: Mailbox, ops: seq<Op>)
    requires FileCallsOnly(ops)
    ensures Run(mb, ops).pendingMessage == mb.pendingMessage
  {
    RunMatchesReference(mb, ops);
    LastMessageSkipsFileCalls(mb.pendingMessage, ops);
  }

  lemma {:induction false} LastMessageSkipsFileCalls(start: Option<string>, ops: seq<Op>)
    requires FileCallsOnly(ops)
    ensures LastMessage(start, ops) == start
    decreases |ops|
  {
    if ops != [] {
      LastMessageSkipsFileCalls(start, ops[..|ops| - 1]);
    }
  }

  /** From the initial store, a message read after a sequence of calls
      returns the last message written unless it was already read. */
  lemma HandoffFromInitial(ops: seq<Op>)
    ensures GetPendingMessage(Run(Initial(), ops)).value == LastMessage(None, ops)
    ensures GetPendingFile(Run(Initial(), ops)).value == LastFile(None, ops)
  {
    RunMatchesReference(Initial(), ops);
  }
}

=== FILE: text.dfy ===
/** The two string operations the core relies on: JavaScript's
    `String.prototype.trim` (used as a blank-input test) and the decimal
    rendering of a non-negative integer (used for ids and status texts). */
module Text {

  /** ECMAScript WhiteSpace and LineTerminator code points, the set `trim`
      removes: TAB, LF, VT, FF, CR, SPACE, NBSP, the other Zs characters,
      LINE SEPARATOR, PARAGRAPH SEPARATOR and ZWNBSP. */
  predicate IsJsWhitespace(c: char) {
    || c == '\U{0009}' || c == '\U{000A}' || c == '\U{000B}' || c == '\U{000C}'
    || c == '\U{000D}' || c == '\U{0020}' || c == '\U{00A0}' || c == '\U{1680}'
    || ('\U{2000}' <= c <= '\U{200A}')
    || c == '\U{2028}' || c == '\U{2029}' || c == '\U{202F}' || c == '\U{205F}'
    || c == '\U{3000}' || c == '\U{FEFF}'
  }

  predicate AllWhitespace(s: string) {
    forall i :: 0 <= i < |s| ==> IsJsWhitespace(s[i])
  }

  /** Drops leading whitespace: the result is the longest suffix of `s`
      that does not start with whitespace. */
  function TrimStart(s: string): (r: string)
    ensures |r| <= |s| && r == s[|s| - |r|..]
    ensures r == [] || !IsJsWhitespace(r[0])
    ensures AllWhitespace(s[..|s| - |r|])
  {
    if |s| > 0 && IsJsWhitespace(s[0]) then
      var r := TrimStart(s[1..]);
      assert s[..|s| - |r|] == [s[0]] + s[1..][..|s| - 1 - |r|];
      assert s[|s| - |r|..] == s[1..][|s| - 1 - |r|..];
      r
    else s
  }

  /** Drops trailing whitespace: the result is the longest prefix of `s`
      that does not end with whitespace. */
  function TrimEnd(s: string): (r: string)
    ensures |r| <= |s| && r == s[..|r|]
    ensures r == [] || !IsJsWhitespace(r[|r| - 1])
    ensures AllWhitespace(s[|r|..])
  {
    if |s| > 0 && IsJsWhitespace(s[|s| - 1]) then
      var p := s[..|s| - 1];
      var r := TrimEnd(p);
      assert s[|r|..] == p[|r|..] + [s[|s| - 1]];
      assert s[..|r|] == p[..|r|];
      r
    else s
  }

  /** `r` is the slice `s[i..j]`, and everything outside it is whitespace. */
  predicate Middle(s: string, r: string, i: nat, j: nat) {
    i <= j <= |s| && r == s[i..j] && AllWhitespace(s[..i]) && AllWhitespace(s[j..])
  }

  /** Whitespace cut from the front of `s` and then from the back of what
      remains leaves a middle slice of `s`. */
  lemma MiddleOfTwoCuts(s: string, t: string, r: string)
    requires |t| <= |s| && t == s[|s| - |t|..] && AllWhitespace(s[..|s| - |t|])
    requires |r| <= |t| && r == t[..|r|] && AllWhitespace(t[|r|..])
    ensures Middle(s, r, |s| - |t|, |s| - |t| + |r|)
  {
    var i := |s| - |t|;
    assert s[i..i + |r|] == t[..|r|];
    assert s[i + |r|..] == t[|r|..];
  }

  /** `s.trim()`: `s` without its leading and trailing whitespace. */
  function Trim(s: string): (r: string)
    ensures |r| <= |s|
    ensures r != [] ==> !IsJsWhitespace(r[0]) && !IsJsWhitespace(r[|r| - 1])
    ensures exists i: nat, j: nat :: Middle(s, r, i, j)
  {
    var t := TrimStart(s);
    var r := TrimEnd(t);
    assert r != [] ==> r[0] == t[0];
    MiddleOfTwoCuts(s, t, r);
    assert Middle(s, r, |s| - |t|, |s| - |t| + |r|);
    r
  }

  /** `!s.trim()`: the trimmed string is the empty, falsy string. */
  predicate Blank(s: string) {
    Trim(s) == []
  }

  /** A string is blank exactly when every character of it is whitespace. */
  lemma BlankIffAllWhitespace(s: string)
    ensures Blank(s) <==> AllWhitespace(s)
  {
    if AllWhitespace(s) {
      TrimStartOfWhitespace(s);
    }
    if Blank(s) {
      var t := TrimStart(s);
      assert t[0..] == t;
      assert t == [];
      assert s[..|s| - |t|] == s;
    }
  }

  lemma {:induction false} TrimStartOfWhitespace(s: string)
    requires AllWhitespace(s)
    ensures TrimStart(s) == []
  {
    if |s| > 0 {
      assert AllWhitespace(s[1..]) by {
        forall i | 0 <= i < |s| - 1 ensures IsJsWhitespace(s[1..][i]) {
          assert s[1..][i] == s[i + 1];
        }
      }
      TrimStartOfWhitespace(s[1..]);
    }
  }

  predicate IsDigit(c: char) {
    '0' <= c <= '9'
  }

  predicate IsDigits(s: string) {
    forall i :: 0 <= i < |s| ==> IsDigit(s[i])
  }

  function DigitChar(d: nat): (c: char)
    requires d < 10
    ensures IsDigit(c)
  {
    (48 + d) as char
  }

  function DigitValue(c: char): nat
    requires IsDigit(c)
  {
    c as int - 48
  }

  /** The number a string of decimal digits denotes, most significant first. */
  function DecimalValue(s: string): nat
    requires IsDigits(s)
  {
    if s == [] then 0 else 10 * DecimalValue(s[..|s| - 1]) + DigitValue(s[|s| - 1])
  }

  /** `n.toString()` for a non-negative integer below 10^21: its canonical
      decimal form, which reads back as `n`. */
  function NatToDecimal(n: nat): (r: string)
    ensures |r| >= 1 && IsDigits(r)
    ensures r[0] == '0' ==> r == "0"
    ensures DecimalValue(r) == n
  {
    if n < 10 then [DigitChar(n)]
    else
      var prefix := NatToDecimal(n / 10);
      var r := prefix + [DigitChar(n % 10)];
      assert r[..|r| - 1] == prefix;
      r
  }

  /** Distinct numbers render as distinct strings. */
  lemma NatToDecimalInjective(a: nat, b: nat)
    requires NatToDecimal(a) == NatToDecimal(b)
    ensures a == b
  {
  }
}

=== FILE: types.dfy ===
/** The records the front-end exchanges with its backend, and the small
    wrappers used to model optional fields, nulls and thrown errors. */
module Types {

  /** An optional value: `None` stands for `null`/`undefined`. */
  datatype Option<+T> = None | Some(value: T)

  /** The settled outcome of an awaited call: a value, or a thrown error. */
  datatype Result<+T, +E> = Ok(value: T) | Err(error: E)

  /** Who wrote a message; the source's `'user' | 'bot'` string union. */
  datatype Sender = User | Bot

  /** A document's indexing status; the source's `'active' | 'inactive'`. */
  datatype DocStatus = Active | Inactive

  /** A PDF as listed inside a chat record. */
  datatype PdfInChatList = PdfInChatList(
    name: string,
    uploadTime: string,
    chunksAdded: nat,
    status: DocStatus)

  /** One chat conversation, as listed in the sidebar. */
  datatype Chat = Chat(
    id: string,
    title: string,
    updatedAt: string,
    messageCount: nat,
    hasPdf: bool,
    pdfCount: Option<nat>,
    pdfList: Option<seq<PdfInChatList>>)

  /** A source cited by a bot message. */
  datatype SourceReference = SourceReference(
    id: int,
    source: string,
    location: Option<string>,
    docType: string,
    contentType: string,
    content: string,
    fullContent: Option<string>,
    page: string)

  /** One message of a transcript; the optional fields of the source are `Option`s. */
  datatype Message = Message(
    id: string,
    text: string,
    sender: Sender,
    timestamp: string,
    isError: Option<bool>,
    hasContext: Option<bool>,
    sourceReferences: Option<seq<SourceReference>>)

  /** A document uploaded to a chat. */
  datatype Document = Document(name: string, chunks: nat, status: DocStatus)

  /** A browser `File`; the core reads only its name. */
  datatype File = File(name: string)

  /** One reading of the clock: `Date.now()` and `new Date().toISOString()`
      taken together. The clock itself is an input of the model. */
  datatype Instant = Instant(millis: nat, iso: string)
}
